=== FILE: README.md ===
# Employee Tracker: navigation, name resolution and validators

Employee Tracker is an interactive command-line tool. It keeps departments, roles
and employees in a MySQL database and drives everything through list and text
prompts (`App.js`). Most of the program is SQL text and prompt configuration.
This project models the three pieces of logic in it that can be stated exactly:

- **Input validators.** `validateInput` bounds an answer's length to 1..30.
  `validateNumber` accepts answers matching `^\d+$`. A validator returns `true`
  or a message string; the model returns `Verdict.Accept` or `Verdict.Reject(message)`.
  JavaScript's `length` counts UTF-16 code units, so the model counts a character
  outside the Basic Multilingual Plane as two units. On ordinary text this is the
  character count (`Validation.ValidateInputCountsCharacters`). The regular
  expression is modelled as a three-state matcher. JavaScript's `\d` is the ASCII
  digits only, and `$` without the `m` flag matches only at the very end.
- **Full-name splitter and id resolution.** Employees are offered by display
  name, `CONCAT(first_name, ' ', last_name)`. The handlers recover the pair with
  `name.split(" ").slice(0, -1).join(" ")` and `name.split(" ").slice(-1).join(" ")`.
  `FullNames` models `split`, `slice` (including negative indices) and `join`
  exactly. It proves that the pair is the text before and after the last space.
  The handlers then select ids by that pair, or a role id by title, and read
  `res[0].id`. `Resolver` models that as "the first row, defined only when a row
  exists". In a table the first row is the earliest matching record.
  `Requests` records what the add-employee, add-role, update-role, update-manager
  and delete-employee handlers send.
- **Menu navigation.** `Dispatch` gives JavaScript `switch` semantics over string
  labels. Control enters at the first matching case and runs bodies until a
  `break`; a default clause placed last runs when nothing matched or when the
  last case falls through. `Navigation` writes out each menu's switch case by
  case and builds a transition system over prompts and running handlers.
  The employees menu has no `break` before its last case. Choosing its k-th
  value (counting from 0) therefore starts handlers k through 7 together.
  The model keeps this fallthrough and stops in an `Overlapping` state there.

Row order: a `SELECT` without `ORDER BY` returns rows in an order the code does not
control. The model takes tables as sequences in the order the rows come back.
"First row" means first in that order.

Four behaviours of `App.js` that the model keeps as written:
- `split(" ")` splits a name at every single space, so two spaces in a row give an
  empty piece; runs of whitespace are not collapsed.
- Reading `res[0].id` on an empty result throws, so a lookup whose name or title
  matches no record is a precondition of the model's lookups.
- When several rows match, the first row is used and the others are ignored.
- The employees menu switch falls through from the chosen case to the last one.

## Model

| member | source | states |
|---|---|---|
| Validation.ValidateInput | App.js:169-174 | accepts exactly when the answer's length in UTF-16 code units is between 1 and 30; otherwise rejects with "input must be between 1 and 30 characters" |
| Validation.Utf16Length | App.js:170 | a string's JavaScript length is at least its character count and at most twice that |
| Validation.Utf16LengthBounds | App.js:170 | a string's JavaScript length equals its character count exactly when every character is in the Basic Multilingual Plane |
| Validation.ValidateInputCountsCharacters | App.js:169-174 | on Basic Multilingual Plane text, validateInput accepts exactly the answers of 1 to 30 characters |
| Validation.ValidateInputBoundaries | App.js:169-174 | the empty answer and a 31-character answer are rejected with the length message; a 30-character answer is accepted |
| Validation.MatchesDigits | App.js:177-178 | `/^\d+$/.test` holds exactly for the non-empty strings of ASCII digits: no other digit characters, no trailing newline |
| Validation.ValidateNumber | App.js:176-179 | accepts exactly the non-empty strings of ASCII digits; every other answer, the empty one included, is rejected with "enter a NUMBER" |
| Validation.ValidateNumberExamples | App.js:176-179 | "123" is accepted; "12a", "" and "12" followed by a newline are rejected |
| FullNames.Split | App.js:682 | `split(" ")` yields at least one piece, and no piece contains the separator |
| FullNames.RelativeIndex | App.js:683 | a negative slice index counts back from the end; an index below -length becomes 0 and one above the length becomes the length, so every index lands in 0..length |
| FullNames.Join | App.js:684 | joining one or more pieces that do not contain the separator and splitting the result again gives the same pieces back |
| FullNames.Slice | App.js:683 | `slice(start, end)` returns exactly the elements from the normalised start up to, not including, the normalised end, and nothing when the two cross |
| FullNames.SliceFrom | App.js:687 | `slice(start)` with start in 0..length is the suffix from start; `slice(-n)` with n up to the length is the last n elements |
| FullNames.JoinSplit | App.js:682-684 | joining the pieces of a split with the same separator gives the original string back |
| FullNames.SplitSeveralPieces | App.js:682 | the split has two or more pieces exactly when the separator occurs in the string |
| FullNames.SplitNoSeparator | App.js:682 | a string without the separator splits into itself alone |
| FullNames.SplitAround | App.js:682 | splitting `a + " " + b` gives the pieces of `a` followed by the pieces of `b`; consecutive spaces therefore give empty pieces |
| FullNames.JoinSnoc | App.js:684 | joining a non-empty list with one more piece appends the separator and that piece |
| FullNames.FirstName | App.js:681-684 | the first name is the text before the last space of the name, measured against an independent last-index-of; "" when the name has no space |
| FullNames.LastName | App.js:685-688 | the last name is the text after the last space of the name; the whole name when it has no space |
| FullNames.SplitFullName | App.js:886-887 | the pair is the text before and after the last space of the name, or ("", name) when there is no space |
| FullNames.PiecesAroundLastSpace | App.js:681-688 | the two split-slice-join expressions give the text before and after the last space, or "" and the whole name when there is none |
| FullNames.NamePieces | App.js:681-688 | the last name is the final piece of the split; the first name is all earlier pieces re-joined with single spaces |
| FullNames.LastNameHasNoSpace | App.js:685-688 | the last name never contains a space |
| FullNames.NoSpaceIsAllLastName | App.js:681-688 | a name without a space gives first name "" and the whole name as last name |
| FullNames.RejoinFullName | App.js:886-887 | for a name containing a space, first + " " + last is the name again |
| FullNames.ConcatRoundTrip | App.js:886-887 | a display name built as first + " " + last with a space-free last name splits back into exactly (first, last), even when first holds spaces |
| FullNames.DoubleSpaceSplit | App.js:1006-1007 | `"Ann  Lee".split(" ")` is "Ann", "" and "Lee": two spaces in a row give an empty piece |
| FullNames.DoubleSpaceExample | App.js:1006-1013 | "Ann  Lee" gives the pair ("Ann ", "Lee"): the empty piece stays in the first name |
| FullNames.MultiWordLastNameExample | App.js:945-957 | the display name of ("Dick", "Van Dyke") splits into ("Dick Van", "Dyke"): two-word last names are not recovered |
| Resolver.EmployeeIdRows | App.js:689-694 | the id selection by name pair is non-empty exactly when some employee carries the pair, and is never longer than the table |
| Resolver.RoleIdRows | App.js:676-678 | the id selection by title is non-empty exactly when some role has the title, and every id in it belongs to a role with that title |
| Resolver.DepartmentIdRows | App.js:501-503 | the id selection by department name is non-empty exactly when a department has the name, and every id in it belongs to such a department |
| Resolver.FirstRowId | App.js:699 | `res[0].id` is defined only on a non-empty result and is the id of one of its rows |
| Resolver.ResolveEmployee | App.js:958-966 | the resolved manager id belongs to an employee carrying the split name pair |
| Resolver.FirstIdIsEarliest | App.js:966 | the first row of the selection is the earliest record carrying the pair |
| Resolver.FirstRoleIdIsEarliest | App.js:889-896 | the first row of the selection by title is the id of the earliest role with that title |
| Resolver.FirstDepartmentIdIsEarliest | App.js:501-503 | the first row of the selection by department name is the id of the earliest department with that name |
| Resolver.ResolvePicksEarliestMatch | App.js:958-966 | resolution by name returns the id of the earliest record with the split pair, and no earlier record has that pair |
| Resolver.ResolveChosenEmployee | App.js:945-966 | an employee chosen from the display-name list with a space-free last name is always found; if no other employee shares the name pair, the id resolved is theirs |
| Resolver.DuplicateNameResolvesToEarlier | App.js:958-966 | when two employees share a name pair, choosing the later one resolves to an earlier record's id, never to theirs |
| Resolver.SpacedLastNameNotFound | App.js:886-887 | an employee whose last name contains a space is not matched by the pair split from their own display name |
| Requests.Targets | App.js:1014-1016 | the records a WHERE first_name AND last_name clause hits are exactly the records carrying that pair |
| Requests.AddEmployeeRequest | App.js:676-699 | add-employee builds its insert from the typed first and last name (assumed free of `"` and `\`, see Left out), the id of the earliest role with the chosen title, and the id of the earliest employee carrying the manager's split name |
| Requests.UpdateEmployeeRoleRequest | App.js:885-899 | update-role sets the id of the earliest role with the chosen title on the employees carrying the split name pair |
| Requests.UpdateEmployeeManagerRequest | App.js:944-969 | update-manager sets the id of the earliest employee carrying the new manager's split name on the employees carrying the employee's split name pair |
| Requests.DeleteEmployeeRequest | App.js:1005-1016 | delete-employee deletes by a name pair; which pair is stated by Requests.ChosenEmployeeIsTargeted |
| Requests.ChosenEmployeeIsTargeted | App.js:886-898 | for an employee chosen by display name (space-free last name), update-role, update-manager and delete all filter on that employee's own (first, last) pair, and the employee is among the records hit |
| Requests.ChosenManagerIsRecorded | App.js:681-699 | choosing a manager with a unique name pair, add-employee and update-manager record exactly that manager's id |
| Requests.AddRoleRequestAsWritten | App.js:501-510 | add-role as written inserts the typed title and salary |
| Requests.AddRoleRequest | App.js:501-510 | corrected add-role inserts the title, the salary and the id of the earliest department with the chosen name |
| Requests.AddRoleAsWrittenDropsDepartment | App.js:504-509 | as written, the department id inserted is undefined for every input, including a department that exists |
| Requests.AddRoleRecordsDepartment | App.js:501-509 | corrected, a department with a unique name gives its id to the new role |
| Dispatch.FirstMatch | App.js:615-633 | a switch enters at the first case whose label equals the value; no case matches only when no label equals it |
| Dispatch.RunFrom | App.js:615-633 | entering at case k runs case k's body first; a case that breaks runs alone; with no break from k on, every remaining body runs and then the default |
| Dispatch.Execute | App.js:211-226 | with no label equal to the value only the default runs; otherwise the run entered at the first case carrying the label |
| Dispatch.RunUntilBreak | App.js:615-633 | entering at case k, the switch runs every body from k up to and including the first case that breaks |
| Dispatch.DistinctLabelsEnterAtOwnCase | App.js:258-268 | with distinct labels, the label of case k enters the switch at case k |
| Navigation.Enter | App.js:211-226 | a switch body with no statement leaves nothing to do, one with two or more starts them together, and the connection-ending body alone exits |
| Navigation.Next | App.js:185-233 | only a prompt takes a chosen value and only a running handler completes; a completed handler always leads to a prompt |
| Navigation.Continuation | App.js:276-1021 | a handler ends at the main menu (`init()` at App.js:338, 370, 524, 563, 713, 796, 826, 854, 909, 978, 1021) exactly when it is not a "view all" handler; a "view all" handler ends at its own area's after-view prompt |
| Navigation.MainMenuTransitions | App.js:211-226 | "departments", "employees" and "roles" open those menus; any other value, "exit" included, ends the connection |
| Navigation.SingleDispatchChoices | App.js:258-268 | in the departments and roles menus, the k-th offered value starts exactly the k-th handler |
| Navigation.SingleDispatchUnknown | App.js:258-268 | the departments and roles switches have no default, so a value they do not offer starts nothing |
| Navigation.SingleChoiceRunsHandler | App.js:404-414 | an offered departments or roles value leaves exactly its handler running |
| Navigation.EmployeeCasesFollowChoices | App.js:579-633 | the employees switch has one case per offered value in the same order; each starts its handler, and only the last breaks |
| Navigation.EmployeeChoicesDistinct | App.js:579-612 | the eight employees menu values are pairwise distinct |
| Navigation.EmployeeBodies | App.js:615-633 | the employees case bodies from case k on start handlers k through 7 in case order |
| Navigation.EmployeesFallThrough | App.js:615-633 | choosing the k-th employees value (counting from 0) starts handlers k through 7 in case order, the value's own handler first and deleteEmployee last |
| Navigation.EmployeesUnknownChoice | App.js:615-633 | a value the employees menu does not offer starts nothing |
| Navigation.EmployeesMenuTransitions | App.js:615-633 | only "delEmp" leaves one handler running; every other employees choice starts 8-k handlers at once, the last always deleteEmployee |
| Navigation.AfterViewTransitions | App.js:301-311 | after a "view all", the back value returns to that area's menu, the main value to the main menu, and any other value ends the connection (departments, roles and employees alike) |
| Navigation.HandlersReturnToMain | App.js:276-342 | add, delete, update and view-by handlers end at the main menu; the three "view all" handlers end at their area's after-view prompt |
| Navigation.AreaChoiceStartsHandlers | App.js:242-268 | every value an area menu offers starts at least one handler |
| Navigation.OfferedChoicesNeverIdle | App.js:235-269 | no value a prompt offers leaves the program with nothing to do |
| Navigation.AreaMenusNeverExit | App.js:257-269 | the area menus have no default branch, so no value chosen there ends the connection |
| Navigation.ViewRoundTrip | App.js:276-313 | main, then departments (or roles), then view all, then "back to main" returns to the main menu |
| Navigation.ActionRoundTrip | App.js:319-375 | main, then departments (or roles), then add or delete, then the handler finishing, returns to the main menu |

## Left out

- MySQL connection setup, `connection.connect` and `connection.end`. Ending the connection is the `Exited` state.
- SQL text and query semantics beyond the WHERE filters the lookups need.
  This covers the joins of the "view by" queries, the manager title allow-list of `getManagers`, cascades and constraint errors.
- The requests of the add-department (App.js:329-340), delete-department (App.js:361-372) and delete-role (App.js:553-565) handlers.
  Each sends one statement built from the typed or chosen name and then calls `init()`; the navigation model covers them only as handlers that end at the main menu.
- A handler that throws. `Complete` means the handler finished normally and went on to `init()` or its after-view prompt.
  A throw inside a query callback ends the process instead, and the model has no state for it. Three cases lead there:
  a database error (`if (err) throw err`), such as the role insert of add-role when `department_id` is NOT NULL (App.js:511);
  `res[0].id` on an empty lookup (App.js:699, 896, 966), which add-employee and update-manager reach when the chosen manager's last name contains a space (`Resolver.SpacedLastNameNotFound`);
  and a `"` in a typed employee name (App.js:702).
- The choice lists loaded from the database (`getDepartments`, `getRoles`, `getEmployees`, `getManagers`).
  Their values enter the model as the names handed to the handlers.
- The prompt library and its re-prompt-on-invalid loop: only the validator functions are modelled.
- Console output and message formatting.
- Callback and promise sequencing. Each handler's own prompts and queries are one `Complete` event.
  The handlers started together by an employees-menu fallthrough are not followed past the `Overlapping` state, because their prompts interleave.
- The string-interpolated employee INSERT (App.js:698-699). The first and last name are pasted between double quotes in the SQL text.
  A name holding `"` breaks the statement, which then fails and throws at App.js:702; a `\` is read by MySQL as an escape.
  `Requests.AddEmployeeRequest` assumes names without `"` or `\` and records the values the statement is built from, not its text.
- Matching by name, title and department name (`Resolver.HasName`, `Resolver.RoleIdRows`, `Resolver.DepartmentIdRows`) is exact string equality.
  `App.js` does not fix the columns' collation; under MySQL's case-insensitive or PAD SPACE collations more rows can match, which can change which row is first.
- Strings holding an unpaired UTF-16 surrogate cannot be written as Dafny strings, so the validators are modelled on well-formed text only.
- Requests.DeleteEmployeeRequest: its own contract states only the request kind. The pair it deletes by is stated by `Requests.ChosenEmployeeIsTargeted`.

## Findings

| source | as written | input that shows it | evidently intended | confidence | as-written member | corrected member |
|---|---|---|---|---|---|---|
| App.js:509 | `department_id: department.id` reads `id` from the query result, which is an array of rows, so the value is undefined | department "Logistics" with id 7; add role "Analyst" with salary "50000" under it | `department[0].id`, the first-row read the other lookups use (App.js:699, 896, 966) | high; not executed | Requests.AddRoleAsWrittenDropsDepartment | Requests.AddRoleRecordsDepartment |

=== FILE: dispatch.dfy ===
/**
 * The semantics of a JavaScript `switch` statement over string labels, as
 * the menus use it: control enters at the first case whose label is
 * strictly equal to the value and runs case bodies from there on until a
 * body ends in `break`; falling off the last case continues into the
 * `default` clause, which every switch here places last. With no matching
 * label only the default runs, and a switch without one does nothing.
 */
module Dispatch {
  import opened Wrappers

  datatype Case<E> = Case(key: string, body: seq<E>, breaks: bool)

  /** A switch: its cases in source order and the body of its default
      clause (empty when there is none). */
  datatype Switch<E> = Switch(cases: seq<Case<E>>, default: seq<E>)

  /** The index of the first case carrying the label. */
  function FirstMatch<E>(cases: seq<Case<E>>, value: string): (k: Option<nat>)
    ensures k.None? ==> forall j :: 0 <= j < |cases| ==> cases[j].key != value
    ensures k.Some? ==> k.value < |cases| && cases[k.value].key == value
    ensures k.Some? ==> forall j :: 0 <= j < k.value ==> cases[j].key != value
  {
    if |cases| == 0 then None
    else if cases[0].key == value then Some(0)
    else match FirstMatch(cases[1..], value)
      case None => None
      case Some(k) => Some(k + 1)
  }

  /** Case k is the first case carrying the label. */
  predicate EntersAt<E>(cases: seq<Case<E>>, value: string, k: int)
  {
    && 0 <= k < |cases|
    && cases[k].key == value
    && forall j :: 0 <= j < k ==> cases[j].key != value
  }

  /** The first case carrying the label is the one FirstMatch finds. */
  lemma FirstMatchFindsEntry<E>(cases: seq<Case<E>>, value: string)
    ensures forall k :: EntersAt(cases, value, k) ==> FirstMatch(cases, value) == Some(k)
  {
    forall k | EntersAt(cases, value, k)
      ensures FirstMatch(cases, value) == Some(k)
    {
      assert cases[k].key == value;
    }
  }

  /** The bodies run when control enters at case k: the entry case's body
      comes first, a breaking case runs alone, and with no break from k on
      every remaining body runs and then the default. */
  function RunFrom<E>(cases: seq<Case<E>>, k: nat, default: seq<E>): (r: seq<E>)
    requires k <= |cases|
    ensures k < |cases| ==> cases[k].body <= r
    ensures k < |cases| && cases[k].breaks ==> r == cases[k].body
    ensures (forall j :: k <= j < |cases| ==> !cases[j].breaks) ==> r == Bodies(cases, k, |cases|) + default
    decreases |cases| - k
  {
    if k == |cases| then default
    else if cases[k].breaks then cases[k].body
    else
      var rest := RunFrom(cases, k + 1, default);
      assert Bodies(cases, k, |cases|) == cases[k].body + Bodies(cases, k + 1, |cases|);
      cases[k].body + rest
  }

  /** Everything a switch runs for a value, in order: the default alone
      when no label matches, otherwise the run entered at the first case
      carrying the label. */
  function Execute<E>(sw: Switch<E>, value: string): (r: seq<E>)
    ensures (forall j :: 0 <= j < |sw.cases| ==> sw.cases[j].key != value) ==> r == sw.default
    ensures forall k :: EntersAt(sw.cases, value, k) ==> r == RunFrom(sw.cases, k, sw.default)
  {
    FirstMatchFindsEntry(sw.cases, value);
    match FirstMatch(sw.cases, value)
    case None => sw.default
    case Some(k) => RunFrom(sw.cases, k, sw.default)
  }

  /** The concatenated bodies of cases lo .. hi-1. */
  function Bodies<E>(cases: seq<Case<E>>, lo: nat, hi: nat): seq<E>
    requires lo <= hi <= |cases|
    decreases hi - lo
  {
    if lo == hi then [] else cases[lo].body + Bodies(cases, lo + 1, hi)
  }

  /** Entering at case k, control runs every body up to and including the
      first case that breaks. */
  lemma {:induction false} RunUntilBreak<E>(cases: seq<Case<E>>, k: nat, b: nat, default: seq<E>)
    requires k <= b < |cases|
    requires forall j :: k <= j < b ==> !cases[j].breaks
    requires cases[b].breaks
    ensures RunFrom(cases, k, default) == Bodies(cases, k, b + 1)
    decreases b - k
  {
    if k < b {
      RunUntilBreak(cases, k + 1, b, default);
    }
  }

  /** In a switch whose labels are distinct, the label of case k enters at
      case k. */
  lemma DistinctLabelsEnterAtOwnCase<E>(sw: Switch<E>, k: nat)
    requires k < |sw.cases|
    requires forall i, j :: 0 <= i < j < |sw.cases| ==> sw.cases[i].key != sw.cases[j].key
    ensures Execute(sw, sw.cases[k].key) == RunFrom(sw.cases, k, sw.default)
  {
    assert FirstMatch(sw.cases, sw.cases[k].key) == Some(k);
  }
}

=== FILE: full_names.dfy ===
/**
 * The full-name splitter of the employee tracker.
 *
 * A display name such as "Jane Doe" (built by the database as
 * CONCAT(first_name, ' ', last_name)) is turned back into a
 * (first_name, last_name) pair by
 *   first = name.split(" ").slice(0, -1).join(" ")
 *   last  = name.split(" ").slice(-1).join(" ")
 * This module models JavaScript's split, slice and join exactly and
 * proves what the pair is in terms of the last space of the name.
 */
module FullNames {
  import opened Wrappers

  const Space: char := ' '

  /** String.prototype.split with a one-character separator: the pieces
      between successive separators, so two adjacent separators yield an
      empty piece and the empty string yields [""]. */
  function Split(s: string, sep: char): (parts: seq<string>)
    ensures |parts| >= 1
    ensures forall i :: 0 <= i < |parts| ==> sep !in parts[i]
    decreases |s|
  {
    if |s| == 0 then [""]
    else
      var rest := Split(s[1..], sep);
      if s[0] == sep then [""] + rest
      else [[s[0]] + rest[0]] + rest[1..]
  }

  /** Array.prototype.join: the pieces with the separator between them.
      Pieces free of the separator are recovered by splitting the result. */
  function Join(parts: seq<string>, sep: char): (s: string)
    ensures |parts| >= 1 && (forall i :: 0 <= i < |parts| ==> sep !in parts[i]) ==> Split(s, sep) == parts
    decreases |parts|
  {
    if |parts| == 0 then ""
    else if |parts| == 1 then
      SplitNoSeparatorFirst(parts[0], sep);
      parts[0]
    else
      var rest := Join(parts[1..], sep);
      SplitAround(parts[0], sep, rest);
      SplitNoSeparatorFirst(parts[0], sep);
      assert [parts[0]] + parts[1..] == parts;
      parts[0] + [sep] + rest
  }

  /** Array.prototype.slice normalises an index: a negative index counts
      back from the end, and the result is clamped to [0, len]. */
  function RelativeIndex(k: int, len: nat): (r: nat)
    ensures r <= len
    ensures k < 0 && -k <= len ==> r == len + k
    ensures 0 <= k <= len ==> r == k
    ensures k < 0 && -k > len ==> r == 0
    ensures k > len ==> r == len
  {
    if k < 0 then (if len + k < 0 then 0 else len + k)
    else if k > len then len
    else k
  }

  /** xs.slice(start, end): the elements from the normalised start up to,
      not including, the normalised end; nothing when they cross. */
  function Slice<T>(xs: seq<T>, start: int, end: int): (r: seq<T>)
    ensures var from, to := RelativeIndex(start, |xs|), RelativeIndex(end, |xs|);
      |r| == (if from < to then to - from else 0)
    ensures forall i :: 0 <= i < |r| ==> r[i] == xs[RelativeIndex(start, |xs|) + i]
  {
    var from := RelativeIndex(start, |xs|);
    var to := RelativeIndex(end, |xs|);
    if from < to then xs[from..to] else []
  }

  /** xs.slice(start), whose end defaults to the length: the suffix from
      the normalised start, so slice(-n) is the last n elements. */
  function SliceFrom<T>(xs: seq<T>, start: int): (r: seq<T>)
    ensures 0 <= start <= |xs| ==> r == xs[start..]
    ensures start < 0 && -start <= |xs| ==> r == xs[|xs| + start..]
  {
    Slice(xs, start, |xs|)
  }

  /** The (first_name, last_name) pair the lookups use. */
  datatype NamePair = NamePair(first: string, last: string)

  /** name.split(" ").slice(0, -1).join(" "): the text before the last
      space, or "" when there is none. */
  function FirstName(full: string): (first: string)
    ensures match LastIndexOf(full, Space)
      case None => first == ""
      case Some(k) => first == full[..k]
  {
    PiecesAroundLastSpace(full);
    Join(Slice(Split(full, Space), 0, -1), Space)
  }

  /** name.split(" ").slice(-1).join(" "): the text after the last space,
      or the whole name when there is none. */
  function LastName(full: string): (last: string)
    ensures match LastIndexOf(full, Space)
      case None => last == full
      case Some(k) => last == full[k + 1..]
  {
    PiecesAroundLastSpace(full);
    Join(SliceFrom(Split(full, Space), -1), Space)
  }

  /** The pair is the text before and after the last space of the name,
      or ("", name) when there is none. */
  function SplitFullName(full: string): (pair: NamePair)
    ensures match LastIndexOf(full, Space)
      case None => pair == NamePair("", full)
      case Some(k) => pair == NamePair(full[..k], full[k + 1..])
  {
    NamePair(FirstName(full), LastName(full))
  }

  /** Independent reference: the position of the last occurrence of c. */
  function LastIndexOf(s: string, c: char): (k: Option<nat>)
    ensures k.None? ==> c !in s
    ensures k.Some? ==> k.value < |s| && s[k.value] == c && c !in s[k.value + 1..]
  {
    if |s| == 0 then None
    else if s[|s| - 1] == c then Some(|s| - 1)
    else
      var k := LastIndexOf(s[..|s| - 1], c);
      assert s[..|s| - 1] + [s[|s| - 1]] == s;
      k
  }

  // ---------------------------------------------------------------------
  // split / join
  // ---------------------------------------------------------------------

  /** Joining the pieces of a split with the same separator gives the
      string back. */
  lemma {:induction false} JoinSplit(s: string, sep: char)
    ensures Join(Split(s, sep), sep) == s
    decreases |s|
  {
    if |s| > 0 {
      var rest := Split(s[1..], sep);
      JoinSplit(s[1..], sep);
      if s[0] == sep {
        assert Split(s, sep) == [""] + rest;
        assert ([""] + rest)[1..] == rest;
      } else {
        var parts := [[s[0]] + rest[0]] + rest[1..];
        assert Split(s, sep) == parts;
        if |rest| == 1 {
          assert Join(parts, sep) == [s[0]] + rest[0];
        } else {
          assert parts[1..] == rest[1..];
          assert Join(rest, sep) == rest[0] + [sep] + Join(rest[1..], sep);
        }
      }
    }
  }

  /** The split has a second piece exactly when the separator occurs. */
  lemma {:induction false} SplitSeveralPieces(s: string, sep: char)
    ensures sep in s <==> |Split(s, sep)| >= 2
    decreases |s|
  {
    if |s| > 0 {
      SplitSeveralPieces(s[1..], sep);
      assert s == [s[0]] + s[1..];
      assert sep in s <==> s[0] == sep || sep in s[1..];
    }
  }

  /** A separator-free string is a single piece. */
  lemma {:induction false} SplitNoSeparator(s: string, sep: char)
    requires sep !in s
    ensures Split(s, sep) == [s]
    decreases |s|
  {
    if |s| > 0 {
      assert sep !in s[1..];
      SplitNoSeparator(s[1..], sep);
      assert [s[0]] + s[1..] == s;
    }
  }

  /** The same fact in implication form, for use inside definitions. */
  lemma SplitNoSeparatorFirst(s: string, sep: char)
    ensures sep !in s ==> Split(s, sep) == [s]
  {
    if sep !in s {
      SplitNoSeparator(s, sep);
    }
  }

  /** One step of the split: a leading separator closes an empty piece,
      any other character starts the first piece of the rest. */
  lemma SplitCons(c: char, t: string, sep: char)
    ensures Split([c] + t, sep) ==
      if c == sep then [""] + Split(t, sep)
      else [[c] + Split(t, sep)[0]] + Split(t, sep)[1..]
  {
    assert ([c] + t)[0] == c;
    assert ([c] + t)[1..] == t;
  }

  /** Splitting at a separator splits the two sides independently. */
  lemma {:induction false} SplitAround(a: string, sep: char, b: string)
    ensures Split(a + [sep] + b, sep) == Split(a, sep) + Split(b, sep)
    decreases |a|
  {
    if |a| == 0 {
      assert a + [sep] + b == [sep] + b;
      SplitCons(sep, b, sep);
    } else {
      var c, t := a[0], a[1..];
      assert a == [c] + t;
      assert a + [sep] + b == [c] + (t + [sep] + b);
      SplitAround(t, sep, b);
      SplitCons(c, t + [sep] + b, sep);
      SplitCons(c, t, sep);
      ConsPieces(c, sep, Split(t, sep), Split(b, sep));
    }
  }

  /** Prepending a character to the first piece commutes with appending
      further pieces. */
  lemma ConsPieces(c: char, sep: char, rt: seq<string>, rb: seq<string>)
    requires |rt| >= 1
    ensures (if c == sep then [""] + (rt + rb) else [[c] + (rt + rb)[0]] + (rt + rb)[1..])
      == (if c == sep then [""] + rt else [[c] + rt[0]] + rt[1..]) + rb
  {
    if c != sep {
      assert (rt + rb)[1..] == rt[1..] + rb;
    }
  }

  /** Joining a non-empty list with one more piece on the end. */
  lemma {:induction false} JoinSnoc(xs: seq<string>, y: string, sep: char)
    requires |xs| >= 1
    ensures Join(xs + [y], sep) == Join(xs, sep) + [sep] + y
    decreases |xs|
  {
    if |xs| == 1 {
      assert xs + [y] == [xs[0], y];
    } else {
      assert (xs + [y])[1..] == xs[1..] + [y];
      JoinSnoc(xs[1..], y, sep);
    }
  }

  // ---------------------------------------------------------------------
  // the (first, last) pair
  // ---------------------------------------------------------------------

  /** slice(0, -1) drops the last element and slice(-1) keeps only it. */
  lemma SlicePieces<T>(xs: seq<T>)
    requires |xs| >= 1
    ensures Slice(xs, 0, -1) == xs[..|xs| - 1]
    ensures SliceFrom(xs, -1) == [xs[|xs| - 1]]
  {
  }

  /** The two expressions of the source, stated on the text around the
      last space. */
  lemma PiecesAroundLastSpace(full: string)
    ensures var parts := Split(full, Space);
      match LastIndexOf(full, Space)
      case None =>
        Join(Slice(parts, 0, -1), Space) == "" && Join(SliceFrom(parts, -1), Space) == full
      case Some(k) =>
        Join(Slice(parts, 0, -1), Space) == full[..k] && Join(SliceFrom(parts, -1), Space) == full[k + 1..]
  {
    var parts := Split(full, Space);
    SlicePieces(parts);
    match LastIndexOf(full, Space)
    case None =>
      SplitNoSeparator(full, Space);
    case Some(k) =>
      var a, b := full[..k], full[k + 1..];
      assert full == a + [Space] + b;
      SplitAround(a, Space, b);
      SplitNoSeparator(b, Space);
      assert parts == Split(a, Space) + [b];
      assert parts[..|parts| - 1] == Split(a, Space);
      JoinSplit(a, Space);
  }

  /** The last name is the final piece of the split and the first name is
      the other pieces re-joined with single spaces. */
  lemma NamePieces(full: string)
    ensures var parts := Split(full, Space);
      && LastName(full) == parts[|parts| - 1]
      && FirstName(full) == Join(parts[..|parts| - 1], Space)
  {
    var parts := Split(full, Space);
    assert SliceFrom(parts, -1) == [parts[|parts| - 1]];
    if |parts| == 1 {
      assert Slice(parts, 0, -1) == [];
    } else {
      assert Slice(parts, 0, -1) == parts[..|parts| - 1];
    }
  }

  /** The last name never contains a space. */
  lemma LastNameHasNoSpace(full: string)
    ensures Space !in LastName(full)
  {
    NamePieces(full);
  }

  /** Without a space the whole name is the last name. */
  lemma NoSpaceIsAllLastName(full: string)
    requires Space !in full
    ensures SplitFullName(full) == NamePair("", full)
  {
    SplitNoSeparator(full, Space);
    NamePieces(full);
  }

  /** Round trip: for a name with a space, first + " " + last is the name. */
  lemma RejoinFullName(full: string)
    requires Space in full
    ensures FirstName(full) + [Space] + LastName(full) == full
  {
    var parts := Split(full, Space);
    SplitSeveralPieces(full, Space);
    NamePieces(full);
    assert parts == parts[..|parts| - 1] + [parts[|parts| - 1]];
    JoinSnoc(parts[..|parts| - 1], parts[|parts| - 1], Space);
    JoinSplit(full, Space);
  }

  /** A name built as first + " " + last with a space-free last name splits
      back into exactly that pair, whatever spaces the first name holds. */
  lemma ConcatRoundTrip(first: string, last: string)
    requires Space !in last
    ensures SplitFullName(first + [Space] + last) == NamePair(first, last)
  {
    var full := first + [Space] + last;
    SplitAround(first, Space, last);
    SplitNoSeparator(last, Space);
    var parts := Split(full, Space);
    assert parts == Split(first, Space) + [last];
    assert parts[..|parts| - 1] == Split(first, Space);
    NamePieces(full);
    JoinSplit(first, Space);
  }

  /** Consecutive spaces give empty pieces. */
  lemma DoubleSpaceSplit()
    ensures Split("Ann  Lee", Space) == ["Ann", "", "Lee"]
  {
    assert "Ann  Lee" == "Ann" + [Space] + ("" + [Space] + "Lee");
    SplitAround("Ann", Space, "" + [Space] + "Lee");
    SplitAround("", Space, "Lee");
    SplitNoSeparator("Ann", Space);
    SplitNoSeparator("Lee", Space);
  }

  /** The empty piece of a double space stays in the first name. */
  lemma DoubleSpaceExample()
    ensures SplitFullName("Ann  Lee") == NamePair("Ann ", "Lee")
  {
    var first, last := "Ann ", "Lee";
    assert first + [Space] + last == "Ann  Lee";
    ConcatRoundTrip(first, last);
  }

  /** A two-word last name is not recovered: its first word moves to the
      first name. */
  lemma MultiWordLastNameExample()
    ensures SplitFullName("Dick" + [Space] + "Van Dyke") == NamePair("Dick Van", "Dyke")
  {
    assert "Dick" + [Space] + "Van Dyke" == "Dick Van" + [Space] + "Dyke";
    ConcatRoundTrip("Dick Van", "Dyke");
  }
}

=== FILE: navigation.dfy ===
/**
 * The menu navigation of the employee tracker as a transition system.
 *
 * Each menu is a list prompt followed by a `switch` on the value chosen.
 * The switch bodies call the next menu, start a handler, or end the
 * database connection. Handlers run their own prompts and queries and then
 * either call `init()` (the main menu) or, for the three "view all"
 * handlers, show an after-view prompt with its own switch.
 *
 * The employees menu switch has no `break` before its last case, so a
 * choice starts its own handler and every handler after it. The model
 * keeps that: such a choice leads to a state where several handlers were
 * started at once, and the model does not follow them further.
 */
module Navigation {
  import opened Wrappers
  import opened Dispatch

  datatype Area = DepartmentsArea | RolesArea | EmployeesArea

  datatype Handler =
    | ViewAllDepartments | AddDepartment | DeleteDepartment
    | ViewAllRoles | AddRole | DeleteRole
    | AddEmployee | ViewAllEmployees | ViewEmployeesByDepartment | ViewEmployeesByRole
    | ViewEmployeesByManager | UpdateEmployeeRole | UpdateEmployeeManager | DeleteEmployee

  /** The functions a switch body calls: `init`, a menu, or a handler. */
  datatype Routine = Init | AreaMenu(area: Area) | Run(handler: Handler)

  /** One statement of a switch body. */
  datatype Effect = Call(routine: Routine) | EndConnection

  /** The list prompts that feed a switch. */
  datatype Prompt = MainPrompt | AreaPrompt(area: Area) | AfterViewPrompt(area: Area)

  /** Starting each handler of the list, in order. */
  function Calls(hs: seq<Handler>): (es: seq<Effect>)
    ensures |es| == |hs|
    ensures forall i :: 0 <= i < |hs| ==> es[i] == Call(Run(hs[i]))
  {
    if |hs| == 0 then [] else [Call(Run(hs[0]))] + Calls(hs[1..])
  }

  // ---------------------------------------------------------------------
  // the switches, case by case as the source writes them
  // ---------------------------------------------------------------------

  const MainSwitch: Switch<Effect> := Switch([
      Case("departments", [Call(AreaMenu(DepartmentsArea))], true),
      Case("employees", [Call(AreaMenu(EmployeesArea))], true),
      Case("roles", [Call(AreaMenu(RolesArea))], true)
    ], [EndConnection])

  const DepartmentsSwitch: Switch<Effect> := Switch([
      Case("viewDepts", [Call(Run(ViewAllDepartments))], true),
      Case("addDept", [Call(Run(AddDepartment))], true),
      Case("delDept", [Call(Run(DeleteDepartment))], true)
    ], [])

  const RolesSwitch: Switch<Effect> := Switch([
      Case("viewRoles", [Call(Run(ViewAllRoles))], true),
      Case("addRole", [Call(Run(AddRole))], true),
      Case("deleteRole", [Call(Run(DeleteRole))], true)
    ], [])

  /** Only the last case breaks. */
  const EmployeesSwitch: Switch<Effect> := Switch([
      Case("addEmp", [Call(Run(AddEmployee))], false),
      Case("viewAllEmp", [Call(Run(ViewAllEmployees))], false),
      Case("viewEmpByDept", [Call(Run(ViewEmployeesByDepartment))], false),
      Case("viewEmpByRole", [Call(Run(ViewEmployeesByRole))], false),
      Case("viewEmpByMngr", [Call(Run(ViewEmployeesByManager))], false),
      Case("updateEmpRole", [Call(Run(UpdateEmployeeRole))], false),
      Case("updateEmpMngr", [Call(Run(UpdateEmployeeManager))], false),
      Case("delEmp", [Call(Run(DeleteEmployee))], true)
    ], [])

  /** The after-view switches: back to the area, back to main, or end. */
  function AfterViewSwitch(a: Area): Switch<Effect>
  {
    match a
    case DepartmentsArea => Switch([
        Case("backDept", [Call(AreaMenu(DepartmentsArea))], true),
        Case("backMain", [Call(Init)], true)
      ], [EndConnection])
    case RolesArea => Switch([
        Case("backRoles", [Call(AreaMenu(RolesArea))], true),
        Case("backMain", [Call(Init)], true)
      ], [EndConnection])
    case EmployeesArea => Switch([
        Case("backEmp", [Call(AreaMenu(EmployeesArea))], true),
        Case("main", [Call(Init)], true)
      ], [EndConnection])
  }

  function SwitchOf(p: Prompt): Switch<Effect>
  {
    match p
    case MainPrompt => MainSwitch
    case AreaPrompt(DepartmentsArea) => DepartmentsSwitch
    case AreaPrompt(RolesArea) => RolesSwitch
    case AreaPrompt(EmployeesArea) => EmployeesSwitch
    case AfterViewPrompt(a) => AfterViewSwitch(a)
  }

  /** What a prompt does with the value chosen. */
  function Respond(p: Prompt, value: string): seq<Effect>
  {
    Execute(SwitchOf(p), value)
  }

  // ---------------------------------------------------------------------
  // the prompts' choice lists: the values offered, in display order
  // ---------------------------------------------------------------------

  const EmployeeChoices: seq<string> := ["addEmp", "viewAllEmp", "viewEmpByDept", "viewEmpByRole",
                                         "viewEmpByMngr", "updateEmpRole", "updateEmpMngr", "delEmp"]

  function Choices(p: Prompt): seq<string>
  {
    match p
    case MainPrompt => ["departments", "employees", "roles", "exit"]
    case AreaPrompt(DepartmentsArea) => ["viewDepts", "addDept", "delDept"]
    case AreaPrompt(RolesArea) => ["viewRoles", "addRole", "deleteRole"]
    case AreaPrompt(EmployeesArea) => EmployeeChoices
    case AfterViewPrompt(DepartmentsArea) => ["backDept", "backMain", "exit"]
    case AfterViewPrompt(RolesArea) => ["backRoles", "backMain", "exit"]
    case AfterViewPrompt(EmployeesArea) => ["backEmp", "main", "exit"]
  }

  /** The handlers behind an area menu's choices, in the same order. */
  function MenuHandlers(a: Area): seq<Handler>
  {
    match a
    case DepartmentsArea => [ViewAllDepartments, AddDepartment, DeleteDepartment]
    case RolesArea => [ViewAllRoles, AddRole, DeleteRole]
    case EmployeesArea => [AddEmployee, ViewAllEmployees, ViewEmployeesByDepartment, ViewEmployeesByRole,
                           ViewEmployeesByManager, UpdateEmployeeRole, UpdateEmployeeManager, DeleteEmployee]
  }

  /** The value of the main menu choice that opens an area. */
  function AreaChoice(a: Area): string
  {
    match a
    case DepartmentsArea => "departments"
    case RolesArea => "roles"
    case EmployeesArea => "employees"
  }

  /** The after-view value that goes back to the area's menu. */
  function BackChoice(a: Area): string
  {
    match a
    case DepartmentsArea => "backDept"
    case RolesArea => "backRoles"
    case EmployeesArea => "backEmp"
  }

  /** The after-view value that goes back to the main menu. */
  function MainChoice(a: Area): string
  {
    if a == EmployeesArea then "main" else "backMain"
  }

  predicate IsViewAll(h: Handler)
  {
    h == ViewAllDepartments || h == ViewAllRoles || h == ViewAllEmployees
  }

  /** The area whose records a "view all" handler shows. */
  function ViewedArea(h: Handler): Area
    requires IsViewAll(h)
  {
    match h
    case ViewAllDepartments => DepartmentsArea
    case ViewAllRoles => RolesArea
    case ViewAllEmployees => EmployeesArea
  }

  /** The prompt a handler leads to once its own prompts and queries are
      done: the after-view prompt for "view all", `init()` for the rest. */
  function Continuation(h: Handler): (p: Prompt)
    ensures p == MainPrompt <==> !IsViewAll(h)
    ensures IsViewAll(h) ==> p == AfterViewPrompt(ViewedArea(h))
  {
    match h
    case ViewAllDepartments => AfterViewPrompt(DepartmentsArea)
    case ViewAllRoles => AfterViewPrompt(RolesArea)
    case ViewAllEmployees => AfterViewPrompt(EmployeesArea)
    case _ => MainPrompt
  }

  // ---------------------------------------------------------------------
  // the transition system
  // ---------------------------------------------------------------------

  /** Showing a prompt; one handler running; several handlers started at
      once; nothing left to do with the connection still open; the
      connection ended. */
  datatype State = At(prompt: Prompt) | Busy(handler: Handler) | Overlapping(started: seq<Effect>) | Idle | Exited

  /** The operator picks a value at a prompt, or a running handler finishes. */
  datatype Event = Choose(value: string) | Complete

  /** The state after running a switch body. */
  function Enter(effects: seq<Effect>): (s: State)
    ensures s.Idle? <==> |effects| == 0
    ensures s.Overlapping? <==> |effects| >= 2
    ensures s.Exited? <==> effects == [EndConnection]
  {
    if |effects| == 0 then Idle
    else if |effects| >= 2 then Overlapping(effects)
    else match effects[0]
      case EndConnection => Exited
      case Call(Init) => At(MainPrompt)
      case Call(AreaMenu(a)) => At(AreaPrompt(a))
      case Call(Run(h)) => Busy(h)
  }

  /** One step; None when the event does not apply to the state. Only a
      prompt takes a choice and only a running handler completes, and a
      completed handler always leads to a prompt. */
  function Next(s: State, e: Event): (r: Option<State>)
    ensures r.Some? <==> (s.At? && e.Choose?) || (s.Busy? && e.Complete?)
    ensures s.Busy? && r.Some? ==> r.value.At?
  {
    match (s, e)
    case (At(p), Choose(v)) => Some(Enter(Respond(p, v)))
    case (Busy(h), Complete) => Some(At(Continuation(h)))
    case _ => None
  }

  function RunEvents(s: State, events: seq<Event>): Option<State>
    decreases |events|
  {
    if |events| == 0 then Some(s)
    else match Next(s, events[0])
      case None => None
      case Some(t) => RunEvents(t, events[1..])
  }

  // ---------------------------------------------------------------------
  // properties
  // ---------------------------------------------------------------------

  /** Main menu: the three area values open their menus; every other
      value, "exit" included, takes the default branch and ends. */
  lemma MainMenuTransitions(v: string)
    ensures Next(At(MainPrompt), Choose(v)) == Some(
      if v == "departments" then At(AreaPrompt(DepartmentsArea))
      else if v == "employees" then At(AreaPrompt(EmployeesArea))
      else if v == "roles" then At(AreaPrompt(RolesArea))
      else Exited)
  {
    var cs := MainSwitch.cases;
    if v != "departments" && v != "employees" && v != "roles" {
      assert FirstMatch(cs[2..], v) == None;
      assert FirstMatch(cs[1..], v) == None;
    }
  }

  /** The departments and roles menus start exactly the one handler listed
      beside the chosen value. */
  lemma SingleDispatchChoices(a: Area)
    requires a != EmployeesArea
    ensures forall k :: 0 <= k < |Choices(AreaPrompt(a))| ==>
      Respond(AreaPrompt(a), Choices(AreaPrompt(a))[k]) == [Call(Run(MenuHandlers(a)[k]))]
  {
    var sw := SwitchOf(AreaPrompt(a));
    forall k | 0 <= k < |Choices(AreaPrompt(a))|
      ensures Respond(AreaPrompt(a), Choices(AreaPrompt(a))[k]) == [Call(Run(MenuHandlers(a)[k]))]
    {
      assert sw.cases[k].key == Choices(AreaPrompt(a))[k];
      DistinctLabelsEnterAtOwnCase(sw, k);
    }
  }

  /** The departments and roles switches have no default: a value they do
      not offer starts nothing. */
  lemma SingleDispatchUnknown(a: Area, v: string)
    requires a != EmployeesArea
    requires v !in Choices(AreaPrompt(a))
    ensures Respond(AreaPrompt(a), v) == []
  {
    assert FirstMatch(SwitchOf(AreaPrompt(a)).cases, v) == None;
  }

  /** The employees switch lists the offered values in order, each case
      starting the matching handler, and only the last case breaks. */
  lemma EmployeeCasesFollowChoices(k: nat)
    requires k < 8
    ensures EmployeesSwitch.cases[k].key == EmployeeChoices[k]
    ensures EmployeesSwitch.cases[k].body == [Call(Run(MenuHandlers(EmployeesArea)[k]))]
    ensures EmployeesSwitch.cases[k].breaks <==> k == 7
  {
  }

  lemma EmployeeChoicesDistinct()
    ensures forall i, j :: 0 <= i < j < |EmployeesSwitch.cases| ==>
      EmployeesSwitch.cases[i].key != EmployeesSwitch.cases[j].key
  {
    var cs := EmployeesSwitch.cases;
    forall i, j | 0 <= i < j < |cs|
      ensures cs[i].key != cs[j].key
    {
      var a, b := cs[i].key, cs[j].key;
      // labels of equal length differ in their first or tenth character
      if |a| == 6 && |b| == 6 {
        assert a[0] != b[0];
      } else if |a| == 13 && |b| == 13 {
        assert a[0] != b[0] || a[9] != b[9];
      }
    }
  }

  /** The concatenated bodies of the employees cases from k on. */
  lemma {:induction false} EmployeeBodies(k: nat)
    requires k <= 8
    ensures Bodies(EmployeesSwitch.cases, k, 8) == Calls(MenuHandlers(EmployeesArea)[k..])
    decreases 8 - k
  {
    var hs := MenuHandlers(EmployeesArea);
    if k < 8 {
      EmployeeBodies(k + 1);
      assert hs[k..] == [hs[k]] + hs[k + 1..];
      EmployeeCasesFollowChoices(k);
    }
  }

  /** The employees menu falls through: the k-th value starts handlers
      k .. 7 in case order, so every choice ends with deleteEmployee and
      only "delEmp" starts a single handler. */
  lemma EmployeesFallThrough(k: nat)
    requires k < |EmployeeChoices|
    ensures Respond(AreaPrompt(EmployeesArea), EmployeeChoices[k]) == Calls(MenuHandlers(EmployeesArea)[k..])
  {
    var sw := EmployeesSwitch;
    EmployeeCasesFollowChoices(k);
    EmployeeChoicesDistinct();
    DistinctLabelsEnterAtOwnCase(sw, k);
    forall j | k <= j < 7
      ensures !sw.cases[j].breaks
    {
      EmployeeCasesFollowChoices(j);
    }
    EmployeeCasesFollowChoices(7);
    RunUntilBreak(sw.cases, k, 7, sw.default);
    EmployeeBodies(k);
  }

  /** A value the employees menu does not offer starts nothing. */
  lemma EmployeesUnknownChoice(v: string)
    requires v !in EmployeeChoices
    ensures Respond(AreaPrompt(EmployeesArea), v) == []
  {
    var cs := EmployeesSwitch.cases;
    forall k | 0 <= k < |cs|
      ensures cs[k].key != v
    {
      EmployeeCasesFollowChoices(k);
    }
  }

  /** As states: "delEmp" runs deleteEmployee alone; any other employees
      choice leaves several handlers started at once, the last of them
      deleteEmployee. */
  lemma EmployeesMenuTransitions(k: nat)
    requires k < |EmployeeChoices|
    ensures k == 7 ==> Next(At(AreaPrompt(EmployeesArea)), Choose(EmployeeChoices[k])) == Some(Busy(DeleteEmployee))
    ensures k < 7 ==>
      Next(At(AreaPrompt(EmployeesArea)), Choose(EmployeeChoices[k])) == Some(Overlapping(Calls(MenuHandlers(EmployeesArea)[k..])))
    ensures var started := Respond(AreaPrompt(EmployeesArea), EmployeeChoices[k]);
      |started| == 8 - k && started[|started| - 1] == Call(Run(DeleteEmployee))
  {
    var hs := MenuHandlers(EmployeesArea)[k..];
    EmployeesFallThrough(k);
    EmployeesStarted(k);
    ChooseEnters(AreaPrompt(EmployeesArea), EmployeeChoices[k]);
    if k == 7 {
      assert Calls(hs) == [Call(Run(DeleteEmployee))];
    }
  }

  /** The handlers the k-th employees value starts: 8 - k of them, the last
      deleteEmployee. */
  lemma EmployeesStarted(k: nat)
    requires k < |EmployeeChoices|
    ensures |Calls(MenuHandlers(EmployeesArea)[k..])| == 8 - k
    ensures Calls(MenuHandlers(EmployeesArea)[k..])[7 - k] == Call(Run(DeleteEmployee))
  {
  }

  /** Choosing a value at a prompt enters the switch body it runs. */
  lemma ChooseEnters(p: Prompt, v: string)
    ensures Next(At(p), Choose(v)) == Some(Enter(Respond(p, v)))
  {
  }

  /** After a "view all": the back value returns to that area's menu, the
      main value to the main menu, anything else ends the connection. */
  lemma AfterViewTransitions(a: Area, v: string)
    ensures Next(At(AfterViewPrompt(a)), Choose(v)) == Some(
      if v == BackChoice(a) then At(AreaPrompt(a))
      else if v == MainChoice(a) then At(MainPrompt)
      else Exited)
  {
    var cs := AfterViewSwitch(a).cases;
    if v != BackChoice(a) && v != MainChoice(a) {
      assert FirstMatch(cs[1..], v) == None;
    }
  }

  /** Add, delete, update and view-by handlers return to the main menu;
      the three "view all" handlers go to their area's after-view prompt. */
  lemma HandlersReturnToMain(h: Handler)
    ensures !IsViewAll(h) ==> Next(Busy(h), Complete) == Some(At(MainPrompt))
    ensures IsViewAll(h) ==> Next(Busy(h), Complete) == Some(At(AfterViewPrompt(ViewedArea(h))))
  {
  }

  /** An offered area-menu value starts at least one handler. */
  lemma AreaChoiceStartsHandlers(a: Area, k: nat)
    requires k < |Choices(AreaPrompt(a))|
    ensures |Respond(AreaPrompt(a), Choices(AreaPrompt(a))[k])| > 0
  {
    if a == EmployeesArea {
      EmployeesFallThrough(k);
    } else {
      SingleDispatchChoices(a);
    }
  }

  /** Every value a prompt offers leads somewhere: the empty switch body
      (no case matched, no default) is reached only by values not offered. */
  lemma OfferedChoicesNeverIdle(p: Prompt, v: string)
    requires v in Choices(p)
    ensures Next(At(p), Choose(v)) != Some(Idle)
  {
    if p.AreaPrompt? {
      var k :| 0 <= k < |Choices(p)| && Choices(p)[k] == v;
      AreaChoiceStartsHandlers(p.area, k);
    } else if p.MainPrompt? {
      MainMenuTransitions(v);
    } else {
      AfterViewTransitions(p.area, v);
    }
  }

  /** The area menus have no default branch: no value chosen there ends the
      connection. */
  lemma AreaMenusNeverExit(a: Area, v: string)
    ensures Next(At(AreaPrompt(a)), Choose(v)) != Some(Exited)
  {
    if a == EmployeesArea {
      if v in EmployeeChoices {
        var k :| 0 <= k < |EmployeeChoices| && EmployeeChoices[k] == v;
        EmployeesFallThrough(k);
      } else {
        EmployeesUnknownChoice(v);
      }
    } else if v in Choices(AreaPrompt(a)) {
      SingleDispatchChoices(a);
      var k :| 0 <= k < |Choices(AreaPrompt(a))| && Choices(AreaPrompt(a))[k] == v;
      assert Respond(AreaPrompt(a), v) == [Call(Run(MenuHandlers(a)[k]))];
    } else {
      SingleDispatchUnknown(a, v);
    }
  }

  /** An offered departments or roles value makes its handler busy. */
  lemma SingleChoiceRunsHandler(a: Area, k: nat)
    requires a != EmployeesArea && k < 3
    ensures Next(At(AreaPrompt(a)), Choose(Choices(AreaPrompt(a))[k])) == Some(Busy(MenuHandlers(a)[k]))
  {
    var v, h := Choices(AreaPrompt(a))[k], MenuHandlers(a)[k];
    SingleDispatchChoices(a);
    assert Respond(AreaPrompt(a), v) == [Call(Run(h))];
    assert Enter([Call(Run(h))]) == Busy(h);
  }

  /** A run of events through states that each step links, one event per
      step, ends in the last of them. */
  lemma {:induction false} RunEventsChain(states: seq<State>, events: seq<Event>)
    requires |states| == |events| + 1
    requires forall i :: 0 <= i < |events| ==> Next(states[i], events[i]) == Some(states[i + 1])
    ensures RunEvents(states[0], events) == Some(states[|events|])
    decreases |events|
  {
    if |events| > 0 {
      assert Next(states[0], events[0]) == Some(states[1]);
      RunEventsChain(states[1..], events[1..]);
    }
  }

  /** The main menu value of an area opens that area's menu. */
  lemma AreaChoiceOpensMenu(a: Area)
    ensures Next(At(MainPrompt), Choose(AreaChoice(a))) == Some(At(AreaPrompt(a)))
  {
    MainMenuTransitions(AreaChoice(a));
  }

  /** The departments or roles "view all" handler ends at its after-view
      prompt. */
  lemma ViewEndsAtAfterView(a: Area)
    requires a != EmployeesArea
    ensures Next(Busy(MenuHandlers(a)[0]), Complete) == Some(At(AfterViewPrompt(a)))
  {
    HandlersReturnToMain(MenuHandlers(a)[0]);
  }

  /** "backMain" at the departments or roles after-view prompt returns to
      the main menu. */
  lemma BackMainReturns(a: Area)
    requires a != EmployeesArea
    ensures Next(At(AfterViewPrompt(a)), Choose("backMain")) == Some(At(MainPrompt))
  {
    AfterViewTransitions(a, "backMain");
  }

  /** Going to an area, viewing all its records and choosing "back to
      main" returns to the main menu. */
  lemma ViewRoundTrip(a: Area)
    requires a != EmployeesArea
    ensures RunEvents(At(MainPrompt), [Choose(AreaChoice(a)), Choose(Choices(AreaPrompt(a))[0]),
                                       Complete, Choose("backMain")]) == Some(At(MainPrompt))
  {
    var view := MenuHandlers(a)[0];
    var events := [Choose(AreaChoice(a)), Choose(Choices(AreaPrompt(a))[0]), Complete, Choose("backMain")];
    var states := [At(MainPrompt), At(AreaPrompt(a)), Busy(view), At(AfterViewPrompt(a)), At(MainPrompt)];
    AreaChoiceOpensMenu(a);
    SingleChoiceRunsHandler(a, 0);
    ViewEndsAtAfterView(a);
    BackMainReturns(a);
    assert Next(states[0], events[0]) == Some(states[1]);
    assert Next(states[1], events[1]) == Some(states[2]);
    assert Next(states[2], events[2]) == Some(states[3]);
    assert Next(states[3], events[3]) == Some(states[4]);
    RunEventsChain(states, events);
  }

  /** Going to the departments or roles menu, adding or deleting a record
      returns to the main menu. */
  lemma ActionRoundTrip(a: Area, k: nat)
    requires a != EmployeesArea && 1 <= k < 3
    ensures RunEvents(At(MainPrompt), [Choose(AreaChoice(a)), Choose(Choices(AreaPrompt(a))[k]), Complete])
      == Some(At(MainPrompt))
  {
    var h := MenuHandlers(a)[k];
    var events := [Choose(AreaChoice(a)), Choose(Choices(AreaPrompt(a))[k]), Complete];
    var states := [At(MainPrompt), At(AreaPrompt(a)), Busy(h), At(MainPrompt)];
    AreaChoiceOpensMenu(a);
    SingleChoiceRunsHandler(a, k);
    HandlersReturnToMain(h);
    assert Next(states[0], events[0]) == Some(states[1]);
    assert Next(states[1], events[1]) == Some(states[2]);
    assert Next(states[2], events[2]) == Some(states[3]);
    RunEventsChain(states, events);
  }
}

=== FILE: requests.dfy ===
/**
 * What the add-employee, add-role, update-role, update-manager and
 * delete-employee handlers send to the database once their prompts are
 * answered: the ids they resolve and the name pair they put in
 * the WHERE clause. SQL text is not modelled; a request records only the
 * values the statement is built from.
 */
module Requests {
  import opened FullNames
  import opened Resolver

  /** A JavaScript value read where a number is expected. */
  datatype JsNumber = Undefined | Number(n: int)

  datatype Request =
    | InsertEmployee(firstName: string, lastName: string, roleId: int, managerId: int)
    | UpdateRoleOf(roleId: int, employee: NamePair)
    | UpdateManagerOf(managerId: int, employee: NamePair)
    | DeleteEmployeeNamed(employee: NamePair)
    | InsertRole(title: string, salary: string, departmentId: JsNumber)

  /** The employees a `WHERE first_name = ? AND last_name = ?` clause hits. */
  function Targets(table: seq<Employee>, key: NamePair): (hit: seq<Employee>)
    ensures forall k :: 0 <= k < |hit| ==> hit[k] in table && HasName(hit[k], key)
    ensures forall e :: e in table && HasName(e, key) ==> e in hit
  {
    if |table| == 0 then []
    else
      var rest := Targets(table[1..], key);
      assert forall e :: e in table ==> e == table[0] || e in table[1..];
      if HasName(table[0], key) then [table[0]] + rest else rest
  }

  // ---------------------------------------------------------------------
  // add employee, update role, update manager, delete employee
  // ---------------------------------------------------------------------

  /** addEmployee: look up the role by title and the manager by split name,
      take the first row of each, insert the new employee. */
  function AddEmployeeRequest(roles: seq<Role>, employees: seq<Employee>,
                              firstName: string, lastName: string,
                              roleTitle: string, managerName: string): (r: Request)
    requires |RoleIdRows(roles, roleTitle)| > 0
    requires HasMatch(employees, managerName)
    ensures r.InsertEmployee? && r.firstName == firstName && r.lastName == lastName
    ensures exists i :: IsEarliestRole(roles, roleTitle, i) && roles[i].id == r.roleId
    ensures exists i :: IsEarliestMatch(employees, SplitFullName(managerName), i) && employees[i].id == r.managerId
  {
    FirstRoleIdIsEarliest(roles, roleTitle);
    ResolvePicksEarliestMatch(employees, managerName);
    InsertEmployee(firstName, lastName,
                   FirstRowId(RoleIdRows(roles, roleTitle)),
                   ResolveEmployee(employees, managerName))
  }

  /** updateEmployeeRole: look up the new role by title, then update the
      employees carrying the split name pair. */
  function UpdateEmployeeRoleRequest(roles: seq<Role>, employeeName: string, roleTitle: string): (r: Request)
    requires |RoleIdRows(roles, roleTitle)| > 0
    ensures r.UpdateRoleOf? && r.employee == SplitFullName(employeeName)
    ensures exists i :: IsEarliestRole(roles, roleTitle, i) && roles[i].id == r.roleId
  {
    FirstRoleIdIsEarliest(roles, roleTitle);
    UpdateRoleOf(FirstRowId(RoleIdRows(roles, roleTitle)), SplitFullName(employeeName))
  }

  /** updateEmployeeByMngr: resolve the new manager by split name, then
      update the employees carrying the employee's split name pair. */
  function UpdateEmployeeManagerRequest(employees: seq<Employee>, employeeName: string, managerName: string): (r: Request)
    requires HasMatch(employees, managerName)
    ensures r.UpdateManagerOf? && r.employee == SplitFullName(employeeName)
    ensures exists i :: IsEarliestMatch(employees, SplitFullName(managerName), i) && employees[i].id == r.managerId
  {
    ResolvePicksEarliestMatch(employees, managerName);
    UpdateManagerOf(ResolveEmployee(employees, managerName), SplitFullName(employeeName))
  }

  /** deleteEmployee: delete the employees carrying the split name pair. */
  function DeleteEmployeeRequest(employeeName: string): (r: Request)
    ensures r.DeleteEmployeeNamed?
  {
    DeleteEmployeeNamed(SplitFullName(employeeName))
  }

  /** The name pair an update or delete request puts in its WHERE clause. */
  function WhereName(r: Request): NamePair
    requires r.UpdateRoleOf? || r.UpdateManagerOf? || r.DeleteEmployeeNamed?
  {
    match r
    case UpdateRoleOf(_, key) => key
    case UpdateManagerOf(_, key) => key
    case DeleteEmployeeNamed(key) => key
  }

  /** Choosing employee i from the list of full names (last name without a
      space), the update-role, update-manager and delete requests all hit
      that employee, and every record they hit has the same name pair. */
  lemma ChosenEmployeeIsTargeted(employees: seq<Employee>, i: nat, roles: seq<Role>,
                                 roleTitle: string, managerName: string)
    requires i < |employees|
    requires Space !in employees[i].lastName
    requires |RoleIdRows(roles, roleTitle)| > 0
    requires HasMatch(employees, managerName)
    ensures var key := NamePair(employees[i].firstName, employees[i].lastName);
      var name := FullName(employees[i]);
      && WhereName(UpdateEmployeeRoleRequest(roles, name, roleTitle)) == key
      && WhereName(UpdateEmployeeManagerRequest(employees, name, managerName)) == key
      && WhereName(DeleteEmployeeRequest(name)) == key
      && employees[i] in Targets(employees, key)
  {
    ConcatRoundTrip(employees[i].firstName, employees[i].lastName);
  }

  /** Choosing a manager whose name pair is unique, add-employee and
      update-manager record that manager's id. */
  lemma ChosenManagerIsRecorded(employees: seq<Employee>, m: nat, roles: seq<Role>,
                                firstName: string, lastName: string, roleTitle: string, employeeName: string)
    requires m < |employees|
    requires Space !in employees[m].lastName
    requires |RoleIdRows(roles, roleTitle)| > 0
    requires forall j :: 0 <= j < |employees| && j != m ==>
      !HasName(employees[j], NamePair(employees[m].firstName, employees[m].lastName))
    ensures HasMatch(employees, FullName(employees[m]))
    ensures AddEmployeeRequest(roles, employees, firstName, lastName, roleTitle, FullName(employees[m])).managerId
      == employees[m].id
    ensures UpdateEmployeeManagerRequest(employees, employeeName, FullName(employees[m])).managerId
      == employees[m].id
  {
    ResolveChosenEmployee(employees, m);
  }

  // ---------------------------------------------------------------------
  // add role
  // ---------------------------------------------------------------------

  /** The `id` property of a query result. A result is an array of rows,
      and an array has no `id` property, so the read gives undefined. */
  function ResultIdProperty(rows: seq<Row>): JsNumber
  {
    Undefined
  }

  /** addRole as written: the department id inserted is `department.id`,
      read from the result array rather than from its first row. */
  function AddRoleRequestAsWritten(departments: seq<Department>, title: string,
                                   salary: string, departmentName: string): (r: Request)
    ensures r.InsertRole? && r.title == title && r.salary == salary
  {
    InsertRole(title, salary, ResultIdProperty(DepartmentIdRows(departments, departmentName)))
  }

  /** addRole with the first row read, as the other lookups do. */
  function AddRoleRequest(departments: seq<Department>, title: string,
                          salary: string, departmentName: string): (r: Request)
    requires |DepartmentIdRows(departments, departmentName)| > 0
    ensures r.InsertRole? && r.title == title && r.salary == salary
    ensures r.departmentId.Number?
    ensures exists i :: IsEarliestDepartment(departments, departmentName, i) && departments[i].id == r.departmentId.n
  {
    FirstDepartmentIdIsEarliest(departments, departmentName);
    InsertRole(title, salary, Number(FirstRowId(DepartmentIdRows(departments, departmentName))))
  }

  /** As written, the new role never gets a department id, even when the
      chosen department exists: adding "Analyst" at 50000 under the only
      department "Logistics" (id 7) inserts an undefined department id. */
  lemma AddRoleAsWrittenDropsDepartment(departments: seq<Department>, title: string,
                                        salary: string, departmentName: string)
    ensures AddRoleRequestAsWritten(departments, title, salary, departmentName).departmentId == Undefined
    ensures AddRoleRequestAsWritten([Department(7, "Logistics")], "Analyst", "50000", "Logistics")
      != InsertRole("Analyst", "50000", Number(7))
  {
  }

  /** Corrected: a department whose name is unique gives its id to the role. */
  lemma AddRoleRecordsDepartment(departments: seq<Department>, d: nat, title: string, salary: string)
    requires d < |departments|
    requires forall j :: 0 <= j < |departments| && j != d ==> departments[j].name != departments[d].name
    ensures |DepartmentIdRows(departments, departments[d].name)| > 0
    ensures AddRoleRequest(departments, title, salary, departments[d].name)
      == InsertRole(title, salary, Number(departments[d].id))
  {
  }
}

=== FILE: resolver.dfy ===
/**
 * Name-to-id resolution. The handlers look up a record by a name pair with
 * `SELECT id FROM employee WHERE first_name = ? AND last_name = ?` (or a
 * role by title) and then read `res[0].id`: the first row returned, with no
 * check for zero or several rows.
 *
 * Tables are sequences in the order the database returns their rows; the
 * WHERE clause keeps the matching rows in that order.
 */
module Resolver {
  import opened Wrappers
  import opened FullNames

  datatype Department = Department(id: int, name: string)
  datatype Role = Role(id: int, title: string, salary: int, departmentId: int)
  datatype Employee = Employee(id: int, firstName: string, lastName: string, roleId: int, managerId: Option<int>)

  /** A row of a `SELECT id ...` result. */
  datatype Row = Row(id: int)

  /** CONCAT(first_name, ' ', last_name): the names offered as choices. */
  function FullName(e: Employee): string
  {
    e.firstName + [Space] + e.lastName
  }

  predicate HasName(e: Employee, key: NamePair)
  {
    e.firstName == key.first && e.lastName == key.last
  }

  /** SELECT id FROM employee WHERE first_name = ? AND last_name = ? */
  function EmployeeIdRows(table: seq<Employee>, key: NamePair): (rows: seq<Row>)
    ensures |rows| <= |table|
    ensures (exists i :: 0 <= i < |table| && HasName(table[i], key)) <==> |rows| > 0
  {
    if |table| == 0 then []
    else
      var rest := EmployeeIdRows(table[1..], key);
      assert forall i :: 0 < i < |table| ==> table[i] == table[1..][i - 1];
      if HasName(table[0], key) then [Row(table[0].id)] + rest else rest
  }

  /** Some role with this title has this id. */
  predicate IsRoleIdOf(roles: seq<Role>, title: string, id: int)
  {
    exists i :: 0 <= i < |roles| && roles[i].title == title && roles[i].id == id
  }

  /** SELECT id FROM role WHERE title = ? */
  function RoleIdRows(roles: seq<Role>, title: string): (rows: seq<Row>)
    ensures |rows| <= |roles|
    ensures (exists i :: 0 <= i < |roles| && roles[i].title == title) <==> |rows| > 0
    ensures forall k :: 0 <= k < |rows| ==> IsRoleIdOf(roles, title, rows[k].id)
  {
    if |roles| == 0 then []
    else
      var rest := RoleIdRows(roles[1..], title);
      assert forall i :: 0 < i < |roles| ==> roles[i] == roles[1..][i - 1];
      if roles[0].title == title then [Row(roles[0].id)] + rest else rest
  }

  /** Some department with this name has this id. */
  predicate IsDepartmentIdOf(departments: seq<Department>, name: string, id: int)
  {
    exists i :: 0 <= i < |departments| && departments[i].name == name && departments[i].id == id
  }

  /** SELECT id FROM department WHERE name = ? */
  function DepartmentIdRows(departments: seq<Department>, name: string): (rows: seq<Row>)
    ensures |rows| <= |departments|
    ensures (exists i :: 0 <= i < |departments| && departments[i].name == name) <==> |rows| > 0
    ensures forall k :: 0 <= k < |rows| ==> IsDepartmentIdOf(departments, name, rows[k].id)
  {
    if |departments| == 0 then []
    else
      var rest := DepartmentIdRows(departments[1..], name);
      assert forall i :: 0 < i < |departments| ==> departments[i] == departments[1..][i - 1];
      if departments[0].name == name then [Row(departments[0].id)] + rest else rest
  }

  /** `res[0].id`. Reading row 0 of an empty result throws in the source,
      so the pick is only defined on a non-empty result. */
  function FirstRowId(rows: seq<Row>): (id: int)
    requires |rows| > 0
    ensures Row(id) in rows
  {
    rows[0].id
  }

  predicate HasMatch(table: seq<Employee>, fullName: string)
  {
    |EmployeeIdRows(table, SplitFullName(fullName))| > 0
  }

  /** The manager and employee lookups: split the chosen name, select by
      the pair, take the first row. */
  function ResolveEmployee(table: seq<Employee>, fullName: string): (id: int)
    requires HasMatch(table, fullName)
    ensures exists i :: 0 <= i < |table| && HasName(table[i], SplitFullName(fullName)) && table[i].id == id
  {
    var rows := EmployeeIdRows(table, SplitFullName(fullName));
    FirstIdIsEarliest(table, SplitFullName(fullName));
    FirstRowId(rows)
  }

  predicate UniqueIds(table: seq<Employee>)
  {
    forall i, j :: 0 <= i < j < |table| ==> table[i].id != table[j].id
  }

  /** Record i carries the name pair and no earlier record does. */
  predicate IsEarliestMatch(table: seq<Employee>, key: NamePair, i: int)
  {
    && 0 <= i < |table|
    && HasName(table[i], key)
    && forall j :: 0 <= j < i ==> !HasName(table[j], key)
  }

  /** The first row of the selection is the earliest matching record. */
  lemma {:induction false} FirstIdIsEarliest(table: seq<Employee>, key: NamePair)
    requires |EmployeeIdRows(table, key)| > 0
    ensures exists i :: IsEarliestMatch(table, key, i) && EmployeeIdRows(table, key)[0].id == table[i].id
    decreases |table|
  {
    if !HasName(table[0], key) {
      FirstIdIsEarliest(table[1..], key);
      var i :| IsEarliestMatch(table[1..], key, i) && EmployeeIdRows(table[1..], key)[0].id == table[1..][i].id;
      assert HasName(table[i + 1], key);
      forall j | 0 <= j < i + 1
        ensures !HasName(table[j], key)
      {
        if j > 0 {
          assert table[j] == table[1..][j - 1];
        }
      }
      assert IsEarliestMatch(table, key, i + 1);
    } else {
      assert IsEarliestMatch(table, key, 0);
    }
  }

  /** Role i has the title and no earlier role does. */
  predicate IsEarliestRole(roles: seq<Role>, title: string, i: int)
  {
    && 0 <= i < |roles|
    && roles[i].title == title
    && forall j :: 0 <= j < i ==> roles[j].title != title
  }

  /** The first row of the title selection is the earliest role with it. */
  lemma {:induction false} FirstRoleIdIsEarliest(roles: seq<Role>, title: string)
    requires |RoleIdRows(roles, title)| > 0
    ensures exists i :: IsEarliestRole(roles, title, i) && RoleIdRows(roles, title)[0].id == roles[i].id
    decreases |roles|
  {
    if roles[0].title != title {
      FirstRoleIdIsEarliest(roles[1..], title);
      var i :| IsEarliestRole(roles[1..], title, i) && RoleIdRows(roles[1..], title)[0].id == roles[1..][i].id;
      forall j | 0 <= j < i + 1
        ensures roles[j].title != title
      {
        if j > 0 {
          assert roles[j] == roles[1..][j - 1];
        }
      }
      assert IsEarliestRole(roles, title, i + 1);
    } else {
      assert IsEarliestRole(roles, title, 0);
    }
  }

  /** Department i has the name and no earlier department does. */
  predicate IsEarliestDepartment(departments: seq<Department>, name: string, i: int)
  {
    && 0 <= i < |departments|
    && departments[i].name == name
    && forall j :: 0 <= j < i ==> departments[j].name != name
  }

  /** The first row of the name selection is the earliest department with it. */
  lemma {:induction false} FirstDepartmentIdIsEarliest(departments: seq<Department>, name: string)
    requires |DepartmentIdRows(departments, name)| > 0
    ensures exists i :: (IsEarliestDepartment(departments, name, i)
                         && DepartmentIdRows(departments, name)[0].id == departments[i].id)
    decreases |departments|
  {
    if departments[0].name != name {
      FirstDepartmentIdIsEarliest(departments[1..], name);
      var i :| IsEarliestDepartment(departments[1..], name, i)
        && DepartmentIdRows(departments[1..], name)[0].id == departments[1..][i].id;
      forall j | 0 <= j < i + 1
        ensures departments[j].name != name
      {
        if j > 0 {
          assert departments[j] == departments[1..][j - 1];
        }
      }
      assert IsEarliestDepartment(departments, name, i + 1);
    } else {
      assert IsEarliestDepartment(departments, name, 0);
    }
  }

  /** Resolution picks the earliest record carrying the split name pair. */
  lemma ResolvePicksEarliestMatch(table: seq<Employee>, fullName: string)
    requires HasMatch(table, fullName)
    ensures exists i :: IsEarliestMatch(table, SplitFullName(fullName), i) && ResolveEmployee(table, fullName) == table[i].id
  {
    FirstIdIsEarliest(table, SplitFullName(fullName));
  }

  /** An employee chosen from the list of full names (last name without a
      space) is found, and when no other employee shares the name pair the
      id resolved is that employee's. */
  lemma ResolveChosenEmployee(table: seq<Employee>, i: nat)
    requires i < |table|
    requires Space !in table[i].lastName
    ensures HasMatch(table, FullName(table[i]))
    ensures (forall j :: 0 <= j < |table| && j != i ==> !HasName(table[j], NamePair(table[i].firstName, table[i].lastName)))
      ==> ResolveEmployee(table, FullName(table[i])) == table[i].id
  {
    var e := table[i];
    ConcatRoundTrip(e.firstName, e.lastName);
    assert HasName(table[i], SplitFullName(FullName(e)));
  }

  /** Two employees sharing a name: choosing the later one by name resolves
      to an earlier record, never to it. */
  lemma DuplicateNameResolvesToEarlier(table: seq<Employee>, i: nat, j: nat)
    requires i < j < |table|
    requires UniqueIds(table)
    requires Space !in table[j].lastName
    requires table[i].firstName == table[j].firstName && table[i].lastName == table[j].lastName
    ensures HasMatch(table, FullName(table[j]))
    ensures ResolveEmployee(table, FullName(table[j])) != table[j].id
  {
    var key := NamePair(table[j].firstName, table[j].lastName);
    ConcatRoundTrip(table[j].firstName, table[j].lastName);
    assert HasName(table[j], key);
    ResolvePicksEarliestMatch(table, FullName(table[j]));
  }

  /** An employee whose last name holds a space is never found by their
      own full name: the split moves part of it into the first name. */
  lemma SpacedLastNameNotFound(e: Employee)
    requires Space in e.lastName
    ensures !HasName(e, SplitFullName(FullName(e)))
  {
    LastNameHasNoSpace(FullName(e));
  }
}

=== FILE: validation.dfy ===
/**
 * The two input validators handed to the prompt library. A validator
 * returns `true` to accept an answer, or a message string that is shown
 * while the prompt asks again.
 */
module Validation {

  /** What a validator returns: `true`, or the message to show. */
  datatype Verdict = Accept | Reject(message: string)

  const MinInputLength: nat := 1
  const MaxInputLength: nat := 30
  const InputLengthMessage: string := "input must be between 1 and 30 characters"
  const NumberMessage: string := "enter a NUMBER"

  // ---------------------------------------------------------------------
  // validateInput: a length bound
  // ---------------------------------------------------------------------

  /** UTF-16 code units needed for one character: characters beyond the
      Basic Multilingual Plane take a surrogate pair. */
  function CodeUnits(c: char): nat
  {
    if c as int > 0xFFFF then 2 else 1
  }

  /** A JavaScript string's `length`, which counts UTF-16 code units. */
  function Utf16Length(s: string): (n: nat)
    ensures |s| <= n <= 2 * |s|
  {
    if |s| == 0 then 0 else Utf16Length(s[..|s| - 1]) + CodeUnits(s[|s| - 1])
  }

  predicate InBasicPlane(s: string)
  {
    forall i :: 0 <= i < |s| ==> s[i] as int <= 0xFFFF
  }

  /** validateInput: accepts exactly the answers whose length is between
      1 and 30, and otherwise rejects with the fixed message. */
  function ValidateInput(input: string): (v: Verdict)
    ensures v.Accept? <==> MinInputLength <= Utf16Length(input) <= MaxInputLength
    ensures v.Reject? ==> v.message == InputLengthMessage
  {
    var len := Utf16Length(input);
    if len > MaxInputLength || len < MinInputLength then Reject(InputLengthMessage)
    else Accept
  }

  /** The code-unit length equals the character count exactly on Basic
      Multilingual Plane text. */
  lemma {:induction false} Utf16LengthBounds(s: string)
    ensures InBasicPlane(s) <==> Utf16Length(s) == |s|
  {
    if |s| > 0 {
      var init := s[..|s| - 1];
      Utf16LengthBounds(init);
      assert InBasicPlane(s) <==> InBasicPlane(init) && s[|s| - 1] as int <= 0xFFFF;
    }
  }

  /** On Basic Multilingual Plane text the bound is on the character count:
      one to thirty characters are accepted, nothing else. */
  lemma ValidateInputCountsCharacters(input: string)
    requires InBasicPlane(input)
    ensures ValidateInput(input).Accept? <==> 1 <= |input| <= 30
  {
    Utf16LengthBounds(input);
  }

  /** The boundaries: the empty answer and a 31-character answer are
      rejected, a 30-character answer is accepted. */
  lemma ValidateInputBoundaries(s: string)
    requires InBasicPlane(s)
    ensures |s| == 0 ==> ValidateInput(s) == Reject(InputLengthMessage)
    ensures |s| == 30 ==> ValidateInput(s) == Accept
    ensures |s| == 31 ==> ValidateInput(s) == Reject(InputLengthMessage)
  {
    Utf16LengthBounds(s);
  }

  // ---------------------------------------------------------------------
  // validateNumber: the regular expression ^\d+$
  // ---------------------------------------------------------------------

  /** `\d` in a JavaScript regular expression: the ASCII digits only. */
  predicate IsAsciiDigit(c: char)
  {
    '0' <= c <= '9'
  }

  /** The states of a matcher for ^\d+$: nothing read yet, one or more
      digits read, or a non-digit seen. */
  datatype ScanState = Start | InDigits | Dead

  function ScanStep(q: ScanState, c: char): ScanState
  {
    if q != Dead && IsAsciiDigit(c) then InDigits else Dead
  }

  function Scan(q: ScanState, s: string): ScanState
    decreases |s|
  {
    if |s| == 0 then q else Scan(ScanStep(q, s[0]), s[1..])
  }

  predicate AllDigits(s: string)
  {
    forall i :: 0 <= i < |s| ==> IsAsciiDigit(s[i])
  }

  lemma {:induction false} ScanDeadStays(s: string)
    ensures Scan(Dead, s) == Dead
    decreases |s|
  {
    if |s| > 0 {
      ScanDeadStays(s[1..]);
    }
  }

  lemma {:induction false} ScanDigitsRun(s: string)
    ensures Scan(InDigits, s) == (if AllDigits(s) then InDigits else Dead)
    decreases |s|
  {
    if |s| > 0 {
      assert AllDigits(s) <==> IsAsciiDigit(s[0]) && AllDigits(s[1..]);
      if IsAsciiDigit(s[0]) {
        ScanDigitsRun(s[1..]);
      } else {
        ScanDeadStays(s[1..]);
      }
    }
  }

  /** reg.test(number) for reg = /^\d+$/. Without the `m` flag `$` matches
      only at the very end, so a trailing newline is not allowed.
      The matcher accepts exactly the non-empty runs of ASCII digits. */
  function MatchesDigits(s: string): (b: bool)
    ensures b <==> |s| > 0 && AllDigits(s)
  {
    ScanStartAccepts(s);
    Scan(Start, s) == InDigits
  }

  /** From the start state the scan ends in InDigits exactly on a
      non-empty run of ASCII digits. */
  lemma ScanStartAccepts(s: string)
    ensures Scan(Start, s) == InDigits <==> |s| > 0 && AllDigits(s)
  {
    if |s| > 0 {
      assert AllDigits(s) <==> IsAsciiDigit(s[0]) && AllDigits(s[1..]);
      if IsAsciiDigit(s[0]) {
        ScanDigitsRun(s[1..]);
      } else {
        ScanDeadStays(s[1..]);
      }
    }
  }

  /** validateNumber: `reg.test(number) || "enter a NUMBER"`. It accepts
      exactly the non-empty strings of ASCII digits; everything else, the
      empty string included, is rejected with "enter a NUMBER". */
  function ValidateNumber(number: string): (v: Verdict)
    ensures v.Accept? <==> |number| > 0 && AllDigits(number)
    ensures v.Reject? ==> v.message == NumberMessage
  {
    if MatchesDigits(number) then Accept else Reject(NumberMessage)
  }

  /** "123" is accepted; "12a", "" and "12\n" are rejected. */
  lemma ValidateNumberExamples()
    ensures ValidateNumber("123") == Accept
    ensures ValidateNumber("12a") == Reject(NumberMessage)
    ensures ValidateNumber("") == Reject(NumberMessage)
    ensures ValidateNumber("12\n") == Reject(NumberMessage)
  {
    assert AllDigits("123");
    assert !IsAsciiDigit("12a"[2]);
    assert !IsAsciiDigit("12\n"[2]);
  }
}

=== FILE: wrappers.dfy ===
/** Optional values shared by the other modules. */
module Wrappers {

  /** A value that may be absent. */
  datatype Option<+T> = None | Some(value: T)
}
